=== FILE: README.md ===
# MusicalBallBox audio bridge, modelled in Dafny

MusicalBallBox is a Unity sandbox in which balls bounce inside a box and each ball
drives one voice of a sample-playback engine written in the ChucK audio language. This
project models the sequential logic of that bridge, using `real` where the game uses
floats:

- the pool of `NUM_VOICES` = 100 voice ids (`takenIDs`) and the per-slot parameter
  arrays the game publishes to the audio script (`VoicePool`, `VoiceSlot`);
- one iteration of the audio script's control loop as an atomic step: count the active
  slots, perform one-shot seeks, reset the cursor on a rate change, and apply auto-gain
  and filter cutoff (`ControlTick`);
- the mapping from a ball's position, energy and velocity to voice parameters, and a
  ball's destroy and retrigger decisions (`SampleBall`, with Unity's `Clamp`/`Lerp` in
  `Mathf`);
- the gravity-dependent energy range, the touch-and-drag launch gesture and clearing the
  box (`GameManager`, with the static settings in `Settings`);
- the guards around the user's recording `custom.wav` (`SampleSelect`).

Modules follow the source files. `Wrappers` holds an `Option` type. Every operation is a
pure function, or a method that returns a new value. The game-side setters and the audio
script's arrays are merged into one `Engine` value.

Behaviour of the code as written, stated by the contracts:

- Allocation has no failure value: when every id is taken, `OpenNewVoice` returns 0.
  That id belongs to a live voice. The ball that receives it shares slot 0 with that
  voice. When that ball is destroyed, it frees slot 0 under the other ball.
- `FreeVoice` zeroes the published volume but not the buffer's gain. The tick never
  touches an inactive slot without a pending seek, so a freed voice keeps its last gain.
  It goes silent only when its buffer runs out (the clause of `ControlTick.TickedSlot`
  on inactive slots without a pending seek). This rests on the assumed effect of the
  float-setter write to the active flag (see `VoicePool.FreeVoice` under "## Left out").
- `KillAll` only broadcasts the kill event. The script's listener for that event,
  which would run `KILL_ALL` and zero every gain, is defined but never started: only the
  sample reloader is. So clearing the box or switching samples silences nothing, and
  every freed voice keeps its gain (`VoicePool.KillAll`, `GameManager.OnClearBox`).
- With no active slot, the tick's `1.0 / activeBufferCount` divides by zero, and no
  factor of 1 is substituted. The factor is read only for active slots, so it is never
  used (`ControlTick.GainFactor`).
- A ball resting on the floor keeps a normalised energy of 1/25, because the bottom of
  the range is a third of the negative gravity. The energy rule therefore never
  releases such a ball (`SampleBall.RestingBallKeepsEnergy`).
- With zero horizontal velocity, the rate formula divides by an infinite travel time
  and gives rate 0. The near-zero-velocity destroy branch is empty.

Further points of the code as written:

- Every slot whose `initialPositions` entry is non-negative is seeked, active or not.
- A ball is destroyed when its energy is used up, and also when it has left the screen.
- The safe energy interval for zero gravity is set in `UpdateGravity`, not inside the
  energy mapping.

## Model

| member | source | states |
|---|---|---|
| VoiceSlot.InitialSlot | Assets/Scripts/SoundManager.cs:61-75 | a freshly set-up slot is silent, inactive, has no seek pending, has its filter fully open, and its buffer rate equals its published rate |
| VoiceSlot.Trunc | Assets/Scripts/SoundManager.cs:120 | the `$ int` cast truncates toward zero: for non-negative input the result is the largest integer not above it, and for negative input the smallest not below it |
| VoiceSlot.CountActive | Assets/Scripts/SoundManager.cs:109-114 | the active count is at most the number of slots, is at least 1 when any slot is active, and is 0 exactly when none is |
| ControlTick.GainFactor | Assets/Scripts/SoundManager.cs:116 | the auto-gain factor is undefined exactly when no slot is active; otherwise it times the count is 1 |
| ControlTick.Cutoff | Assets/Scripts/SoundManager.cs:148 | a curved modulation in [0,1] gives a cutoff between MIN_LPF (100 Hz) and MAX_LPF (20000 Hz, both declared at SoundManager.cs lines 44-45), with 0 and 1 mapping to the two ends |
| ControlTick.SeekWithinBuffer | Assets/Scripts/SoundManager.cs:119-121 | a seek to a start fraction in [0,1] lands between sample 0 and the buffer length, inclusive |
| ControlTick.CountSlots | Assets/Scripts/SoundManager.cs:109-114 | the first loop computes the number of active slots |
| ControlTick.SeekAll | Assets/Scripts/SoundManager.cs:118-128 | the second loop applies the sentinel-gated seek to every slot, active or not |
| ControlTick.ModulateAll | Assets/Scripts/SoundManager.cs:131-150 | the third loop resets and modulates every active slot and leaves the inactive ones alone |
| ControlTick.Tick | Assets/Scripts/SoundManager.cs:108-153 | every slot changes as `TickedSlot` describes, with n the number of active slots. No seek is pending afterwards, and every seek slot sits at trunc(fraction × samples) playing its published rate. An active slot whose rate changed moves its cursor to the end if the new rate is negative and to the start otherwise; one whose rate did not change keeps its cursor. Each active slot's gain is curve(volume) × 1/n and its cutoff is the filter mapping. Published rate, volume, filter modulation and flags are untouched, a slot without a pending seek keeps its start position, and an inactive slot without a seek is untouched altogether |
| VoicePool.CountTaken | Assets/Scripts/SoundManager.cs:7-9 | the number of taken ids never exceeds the table size, is positive when any id is taken, and equals the size exactly when every id is taken |
| VoicePool.CountTakenUpdate | Assets/Scripts/SoundManager.cs:187 | taking a free id raises the taken count by one and freeing a taken id lowers it by one |
| VoicePool.CountTakenIsCountActive | Assets/Scripts/SoundManager.cs:109-116 | while the pool and the audio script agree, the tick's active count, and so its auto-gain divisor, equals the number of taken ids |
| VoicePool.Initial | Assets/Scripts/SoundManager.cs:156-159 | at start no id is taken and the pool agrees with the audio script's flags |
| VoicePool.OpenNewVoice | Assets/Scripts/SoundManager.cs:184-202 | with a free id, returns the lowest free id and marks only it taken, so the count rises by one. It publishes that slot's rate, volume, filter modulation, start position and active flag, and leaves every other slot unchanged. With every id taken, returns 0 and changes nothing. Pool/flag agreement is preserved |
| VoicePool.FreeVoice | Assets/Scripts/SoundManager.cs:204-210 | the id becomes free and inactive, with no pending seek and volume 0. Its buffer's gain and cursor and every other slot are unchanged, and the taken count drops by one if the id was taken |
| VoicePool.FreeVoiceIdempotent | Assets/Scripts/SoundManager.cs:204-210 | freeing an id twice equals freeing it once |
| VoicePool.UpdateModulatedData | Assets/Scripts/SoundManager.cs:212-216 | only the slot's volume and filter modulation change; the x position is not sent |
| VoicePool.RetriggerBuffer | Assets/Scripts/SoundManager.cs:218-220 | only the slot's published rate changes, so the rate-change reset happens on the next tick |
| VoicePool.SilenceAll | Assets/Scripts/SoundManager.cs:85-89 | the script's `KILL_ALL` sets every buffer's gain to 0 and changes nothing else |
| VoicePool.KillAll | Assets/Scripts/SoundManager.cs:226-228 | the kill broadcast silences every buffer only when the kill listener is running, and otherwise changes nothing. The running listeners are a parameter; the script starts only the sample reloader (SoundManager.cs lines 98-105), so with `SPORKED` the engine is unchanged |
| VoicePool.TickEngine | Assets/Scripts/SoundManager.cs:108-153 | a tick over the whole engine leaves the taken table as it is, keeps the pool consistent, and changes each slot as `TickedSlot` describes |
| VoicePool.TickKeepsConsistent | Assets/Scripts/SoundManager.cs:118-128 | any slot arrays a tick can produce keep taken ids and active flags in agreement, and leave no seek pending |
| Mathf.Clamp | Assets/Scripts/SampleBall.cs:41-44 | the result lies in the range, equals the input inside it and the nearer end outside it |
| Mathf.Lerp | Assets/Scripts/GameManager.cs:115 | the parameter is clamped to [0,1]: inside it the result is the linear interpolation, at or below 0 it is the first end and at or above 1 the second |
| SampleBall.AxisRawLandmarks | Assets/Scripts/SampleBall.cs:35-40 | before clamping, the box centre maps to 0.5 and the two reachable walls map to 1 and 0 |
| SampleBall.AxisRawMonotone | Assets/Scripts/SampleBall.cs:35-40 | the unclamped coordinate map is monotone non-decreasing |
| SampleBall.NormalizedCoords | Assets/Scripts/SampleBall.cs:33-47 | both normalised coordinates lie in [0,1] for every position, and equal the linear map wherever the ball's centre can actually be |
| SampleBall.TotalEnergy | Assets/Scripts/SampleBall.cs:100-113 | a ball at rest with its centre at the lowest reachable height has zero total energy, so the potential energy is measured from that height |
| SampleBall.EnergyNonNegativeAboveFloor | Assets/Scripts/SampleBall.cs:100-113 | under downward gravity a ball above the lowest reachable height has non-negative total energy |
| SampleBall.NormalizedEnergy | Assets/Scripts/SampleBall.cs:49-56 | the normalised energy lies in [0,1]. With a proper range it is 0 at or below the bottom, 1 at or above the top, and strictly between inside. From the bottom to the top it is exactly (energy − bottom)/(top − bottom) |
| SampleBall.RestingBallKeepsEnergy | Assets/Scripts/SampleBall.cs:100-113 | a ball at rest on the floor has zero total energy yet normalised energy 1/25 under any non-zero gravity |
| SampleBall.SampleRate | Assets/Scripts/SampleBall.cs:115-120 | for non-zero velocity the rate is sampleLength × vx / (2 × BOX_WIDTH); for zero velocity it is 0 |
| SampleBall.RateSignFollowsVelocity | Assets/Scripts/SampleBall.cs:115-120 | with a loaded sample, the rate is positive iff the velocity is, and negative iff it is |
| SampleBall.ColorOf | Assets/Scripts/SampleBall.cs:58-61 | normalised inputs give a hue in [0, 0.5] and a saturation in [0.25, 1] |
| SampleBall.OpacityBounds | Assets/Scripts/SampleBall.cs:61 | the square root of a normalised energy lies in [0,1] |
| SampleBall.Init | Assets/Scripts/SampleBall.cs:15-31 | a new ball gets the lowest free id, and its slot carries the normalised coordinates, the energy and the velocity-derived rate. The start fraction lies in [0,1]. With no free id the ball gets 0 and nothing changes |
| SampleBall.DestroySelf | Assets/Scripts/SampleBall.cs:95-98 | only the ball's own id is freed, and a second call changes nothing |
| SampleBall.Update | Assets/Scripts/SampleBall.cs:68-93 | the voice is freed iff the normalised energy is at most 0 or the ball is outside the screen, independent of velocity. Otherwise the taken table is unchanged and the ball's slot changes only in its volume, now the current energy, and its filter modulation, now the normalised height; its rate, flag and any pending seek stay as they were. Other slots are never touched |
| SampleBall.OnCollision | Assets/Scripts/SampleBall.cs:122-130 | a side-wall hit republishes the rate for the current velocity and changes nothing else; a floor or ceiling hit changes nothing |
| GameManager.UpdateGravity | Assets/Scripts/GameManager.cs:114-125 | gravity lies in [-40, 0] and the energy range is non-degenerate (top above bottom) for every slider value. Gravity is 0 exactly for sliders at or below 0, and then the range is [0,1]; otherwise top = -2 × BOX_HEIGHT × g and bottom = g/3 |
| GameManager.MouseDown | Assets/Scripts/GameManager.cs:58-68 | a press starts a touch at the point only if no touch is running and the point is strictly inside the box; otherwise nothing changes |
| GameManager.MouseUp | Assets/Scripts/GameManager.cs:75-82 | a release launches from the touch start iff a touch was running, and no touch remains afterwards |
| GameManager.HandleMouse | Assets/Scripts/GameManager.cs:58-82 | within one frame a press is handled before a release. A release always ends the touch. It launches iff a touch is running once the press is handled: one that was already running launches from its start with the drag velocity, and one that a press inside the box started in the same frame launches from the press point with zero velocity. Without a release nothing launches |
| GameManager.InitialGame | Assets/Scripts/GameManager.cs:26-41 | before the first frame the declared energy range is already non-degenerate and no touch is running |
| GameManager.Frame | Assets/Scripts/GameManager.cs:50-83 | a frame keeps the energy range non-degenerate, sets gravity from the slider on the first frame and keeps it on every later one. A release ends any touch, and a launch happens exactly on a release while a touch is running, counting one that a press inside the box started in the same frame |
| GameManager.OnGravitySlider | Assets/Scripts/GameManager.cs:114-125 | moving the slider leaves a non-degenerate energy range and does not affect the touch |
| GameManager.LaunchBall | Assets/Scripts/GameManager.cs:85-94 | the ball starts at the drag start, and each velocity component is the drag from start to end times VELOCITY_MULTIPLIER (5). When an id is free, its voice is active and plays at the velocity-derived rate |
| GameManager.DestroyAll | Assets/Scripts/GameManager.cs:143-147 | every ball's id ends up free and inactive, and ids held by no ball are unchanged, even when two balls share an id. No buffer's gain or cursor changes |
| GameManager.OnClearBox | Assets/Scripts/GameManager.cs:143-149 | all balls' voices are freed, and then the kill broadcast reaches no listener, so every buffer keeps the gain it had. Ids held by no ball keep their taken state |
| SampleSelect.StartRecording | Assets/Scripts/SampleSelectManager.cs:34-39 | a start adds a recorder only when none is recording, so a repeated start changes nothing |
| SampleSelect.StopRecording | Assets/Scripts/SampleSelectManager.cs:41-46 | a stop while recording removes exactly one recorder; otherwise nothing changes |
| SampleSelect.NeverTwoRecorders | Assets/Scripts/SampleSelectManager.cs:34-60 | for any sequence of start and stop events there is at most one recorder, running exactly while recording |
| SampleSelect.InitialSelector | Assets/Scripts/SampleSelectManager.cs:18-19 | at start nothing has been recorded and the recording script agrees that nothing is recording |
| SampleSelect.OnDropdownChanged | Assets/Scripts/SampleSelectManager.cs:73-81 | choosing custom.wav is ignored iff recording or nothing has been recorded. custom.wav is reloaded only after a finished recording. Every choice that is not ignored, custom.wav included, clears the box and reloads exactly the chosen file |
| SampleSelect.OnPlaybackClicked | Assets/Scripts/SampleSelectManager.cs:97-103 | playback is refused exactly when the dropdown would ignore the same choice, and otherwise plays the chosen file |
| SampleSelect.OnRecordClicked | Assets/Scripts/SampleSelectManager.cs:83-95 | a click toggles recording and leaves playback enabled exactly when not recording. "Recorded" turns on only when a recording stops and never turns off, and the recording script stays in step with at most one recorder |
| SampleSelect.ApplyDropdown | Assets/Scripts/SampleSelectManager.cs:73-81 | an ignored choice leaves the scene unchanged. Otherwise every ball's voice is freed, every buffer keeps its gain, the balls are gone and the chosen file is loaded |

## Left out

- Concurrency and transport: the setters are modelled as direct writes, with no
  cross-runtime calls. Each `OpenNewVoice`, `FreeVoice` and control tick is one atomic
  step, so a tick that interleaves with the five setter calls of one `OpenNewVoice` is
  not modelled. Also out: the 5 ms sleep, `spork`ed event listeners and
  `BroadcastEvent` latency.
- VoicePool.FreeVoice: the code writes the integer array `bufferActiveFlags` through the
  float setter. The model assumes the intended effect, flag := 0.
- VoicePool.FreeVoice: requires an id below NUM_VOICES. In the code an out-of-range id
  is an index exception on `takenIDs`, which also reaches `SampleBall.DestroySelf` and
  a destroying `SampleBall.Update`. `UpdateModulatedData`, `RetriggerBuffer` and
  `SampleBall.OnCollision` index no game-side array and only pass the id to the audio
  script's setters; they carry the same requires because every id a ball holds comes
  from `OpenNewVoice`, which returns one below NUM_VOICES.
- SampleBall.NormalizedEnergy: requires a top different from the bottom. In the code the
  division by zero then gives an infinite value, which `Mathf.Clamp` takes to 1 or 0 by
  its sign, and a non-number only when the energy equals the bottom. `GameManager.UpdateGravity` and
  `GameManager.InitialGame` show that this never happens.
- `GetGainFromFloat`: its decibel/power conversion is a parameter `curve`, because it is
  floating-point numerics.
- UpdateColor's `Mathf.Pow(e, 0.5)`: described by `SampleBall.OpacityBounds` for any
  non-negative root. Square roots are not computable over the reals. `Color.HSVToRGB` is
  left out.
- Mathf.Lerp: does not state that the result lies between the two ends, because that
  bound is nonlinear in the parameter. For the one use in the game, the gravity bounds
  are proved directly by `GameManager.UpdateGravity`.
- SampleBall.TotalEnergy: squares a square root of the squared speed. The model uses
  the squared speed directly.
- Float rounding: all arithmetic is exact. `0.2f` and `9.81f` are taken at their decimal
  values.
- The sample buffer primitives (`SndBuf.read`, `samples()`, `LPF`, `dac`): the buffer
  length in samples is a parameter of the tick.
- Sample loading: `ReloadSample`, `LOAD_SAMPLES`, the sample-length callback and
  polling, and `GetSampleLength`. The sample length in seconds is an input of the ball
  mapping, and a reload only sets the scene's file name.
- Engine and UI calls: Unity physics, camera and input, `Instantiate`/`Destroy`,
  `AddBall` (it is random), the bounciness sliders and wall re-enabling, the launch
  arrow, the record button's label, and the ChucK code string that `OnPlaybackClicked`
  generates and runs.
- The `rec.ck` recorder itself: only the count of recorder shreds is modelled.

=== FILE: control_tick.dfy ===
/**
  One iteration of the audio script's control loop (SoundManager.cs, the
  `while(true)` in the embedded script): count the active slots, perform the
  pending one-shot seeks, then, for every active slot, reset the cursor on a
  rate change and apply gain and cutoff. The 5 ms sleep between iterations is
  not modelled; each tick is one atomic step over all slots.
 */
module ControlTick {
  import opened Wrappers
  import opened VoiceSlot

  /**
    `1.0 / activeBufferCount`. With no active slot this is a division by
    zero in the audio script; the factor then has no value, and the tick
    reads it only for active slots, of which there are none.
   */
  function GainFactor(n: nat): (g: Option<real>)
    ensures g.None? <==> n == 0
    ensures g.Some? ==> g.value * (n as real) == 1.0
  {
    if n == 0 then None else Some(1.0 / n as real)
  }

  /** Cutoff for a normalised filter modulation, between MIN_LPF and MAX_LPF for curve values in [0,1]. */
  function Cutoff(curvedMod: real): (hz: real)
    ensures 0.0 <= curvedMod <= 1.0 ==> MIN_LPF <= hz <= MAX_LPF
    ensures curvedMod == 0.0 ==> hz == MIN_LPF
    ensures curvedMod == 1.0 ==> hz == MAX_LPF
  {
    curvedMod * (MAX_LPF - MIN_LPF) + MIN_LPF
  }

  /** Second loop, one slot: the seek gated by the `initialPositions` sentinel. */
  function Seek(s: Slot, samples: nat): Slot
  {
    if s.SeekPending() then
      s.(pos := Trunc(s.pendingPos * samples as real), appliedRate := s.rate,
         gain := 1.0, pendingPos := NO_SEEK)
    else s
  }

  /** The product of two non-negative reals is non-negative. */
  lemma MulNonNegative(a: real, b: real)
    requires a >= 0.0 && b >= 0.0
    ensures a * b >= 0.0
  {
  }

  /** A seek to a fraction in [0,1] lands inside the buffer. */
  lemma SeekWithinBuffer(fraction: real, samples: nat)
    requires 0.0 <= fraction <= 1.0
    ensures 0 <= Trunc(fraction * samples as real) <= samples
    ensures fraction == 0.0 ==> Trunc(fraction * samples as real) == 0
    ensures fraction == 1.0 ==> Trunc(fraction * samples as real) == samples
  {
    var n := samples as real;
    MulNonNegative(fraction, n);
    MulNonNegative(1.0 - fraction, n);
    assert (1.0 - fraction) * n == n - fraction * n;
    var t := Trunc(fraction * n);
    assert t as real <= fraction * n;
  }

  /** Third loop, one slot: rate-change cursor reset and modulation, active slots only. */
  function Modulate(s: Slot, samples: nat, factor: Option<real>, curve: real -> real): Slot
    requires s.Active() ==> factor.Some?
  {
    if !s.Active() then s
    else
      var s1 :=
        if s.rate != s.appliedRate then
          s.(pos := if s.rate < 0.0 then samples else 0, appliedRate := s.rate)
        else s;
      s1.(gain := curve(s.volume) * factor.value, cutoff := Cutoff(curve(s.filterMod)))
  }

  /**
    What one tick does to a single slot `s`, giving `t`, when `n` slots are
    active: the published parameters other than the seek request are only
    read; a pending seek is performed once and cleared; an active slot whose
    rate changed without a seek restarts from the end for reverse playback
    and from the start otherwise, and one whose rate did not change keeps
    its cursor; every active slot ends up at its published rate with gain
    curve(volume) / n and the filter cutoff for its modulation; an inactive
    slot with no seek pending is not touched.
   */
  predicate TickedSlot(s: Slot, t: Slot, samples: nat, n: nat, curve: real -> real)
  {
    && t.rate == s.rate && t.volume == s.volume
    && t.filterMod == s.filterMod && t.activeFlag == s.activeFlag
    && !t.SeekPending()
    && (!s.SeekPending() ==> t.pendingPos == s.pendingPos)
    && (s.SeekPending() ==>
          t.pendingPos == NO_SEEK && t.pos == Trunc(s.pendingPos * samples as real)
          && t.appliedRate == s.rate)
    && (s.SeekPending() && !s.Active() ==> t.gain == 1.0 && t.cutoff == s.cutoff)
    && (s.Active() && !s.SeekPending() && s.rate != s.appliedRate ==>
          t.pos == (if s.rate < 0.0 then samples else 0))
    && (s.Active() && !s.SeekPending() && s.rate == s.appliedRate ==> t.pos == s.pos)
    && (s.Active() ==> t.appliedRate == s.rate)
    && (s.Active() && n > 0 ==>
          t.gain == curve(s.volume) * (1.0 / n as real) && t.cutoff == Cutoff(curve(s.filterMod)))
    && (!s.Active() && !s.SeekPending() ==> t == s)
  }

  /** Seeking and then modulating a slot meets the per-slot description. */
  lemma SlotStep(s: Slot, samples: nat, n: nat, curve: real -> real)
    requires s.Active() ==> n >= 1
    ensures TickedSlot(s, Modulate(Seek(s, samples), samples, GainFactor(n), curve), samples, n, curve)
  {
  }

  /** First loop: count the active slots. */
  method CountSlots(slots: seq<Slot>) returns (n: nat)
    ensures n == CountActive(slots)
  {
    n := 0;
    var i := 0;
    while i < |slots|
      invariant 0 <= i <= |slots|
      invariant n == CountActive(slots[..i])
    {
      assert slots[..i + 1][..i] == slots[..i];
      if slots[i].Active() {
        n := n + 1;
      }
      i := i + 1;
    }
    assert slots[..|slots|] == slots;
  }

  /** Second loop: perform every pending seek. */
  method SeekAll(slots: seq<Slot>, samples: nat) returns (out: seq<Slot>)
    ensures |out| == |slots|
    ensures forall i :: 0 <= i < |slots| ==> out[i] == Seek(slots[i], samples)
  {
    out := slots;
    var i := 0;
    while i < |out|
      invariant 0 <= i <= |out| == |slots|
      invariant forall j :: 0 <= j < i ==> out[j] == Seek(slots[j], samples)
      invariant forall j :: i <= j < |out| ==> out[j] == slots[j]
    {
      if out[i].SeekPending() {
        out := out[i := Seek(out[i], samples)];
      }
      i := i + 1;
    }
  }

  /** Third loop: rate-change resets and modulation of the active slots. */
  method ModulateAll(slots: seq<Slot>, samples: nat, factor: Option<real>, curve: real -> real)
    returns (out: seq<Slot>)
    requires forall i :: 0 <= i < |slots| && slots[i].Active() ==> factor.Some?
    ensures |out| == |slots|
    ensures forall i :: 0 <= i < |slots| ==> out[i] == Modulate(slots[i], samples, factor, curve)
  {
    out := slots;
    var i := 0;
    while i < |out|
      invariant 0 <= i <= |out| == |slots|
      invariant forall j :: 0 <= j < i ==> out[j] == Modulate(slots[j], samples, factor, curve)
      invariant forall j :: i <= j < |out| ==> out[j] == slots[j]
    {
      if out[i].Active() {
        out := out[i := Modulate(out[i], samples, factor, curve)];
      }
      i := i + 1;
    }
  }

  /**
    One control tick over the slot arrays. `samples` is the buffer length
    in samples (the same file is loaded in every slot) and `curve` stands
    for the script's GetGainFromFloat.
   */
  method Tick(slots: seq<Slot>, samples: nat, curve: real -> real) returns (out: seq<Slot>)
    ensures |out| == |slots|
    ensures forall i :: 0 <= i < |slots| ==> TickedSlot(slots[i], out[i], samples, CountActive(slots), curve)
  {
    var n := CountSlots(slots);
    var factor := GainFactor(n);
    var seeked := SeekAll(slots, samples);
    out := ModulateAll(seeked, samples, factor, curve);
    forall i | 0 <= i < |slots|
      ensures out[i] == Modulate(Seek(slots[i], samples), samples, GainFactor(n), curve)
    {
    }
    forall i | 0 <= i < |slots| {
      SlotStep(slots[i], samples, n, curve);
    }
  }
}

=== FILE: game_manager.dfy ===
/**
  GameManager.cs: the gravity slider and the energy range it sets, the
  touch-and-drag gesture that launches a ball, and clearing the box.
 */
module GameManager {
  import opened Wrappers
  import opened Mathf
  import opened Settings
  import opened VoicePool
  import opened SampleBall

  /** Vertical gravity together with the energy range derived from it. */
  datatype Gravity = Gravity(gravityY: real, range: EnergyRange)

  /**
    UpdateGravity: the slider interpolates gravity between 0 and -40, and the
    energy range follows it; with zero gravity the range would collapse to
    a single point, so [0,1] is used instead. For every slider value the
    range is non-degenerate.
   */
  function UpdateGravity(slider: real): (g: Gravity)
    ensures MAX_GRAVITY <= g.gravityY <= MIN_GRAVITY
    ensures g.range.Valid()
    ensures g.gravityY == 0.0 <==> slider <= 0.0
    ensures g.gravityY == 0.0 ==> g.range == EnergyRange(1.0, 0.0)
    ensures g.gravityY < 0.0 ==>
      g.range.top == -2.0 * BOX_HEIGHT * g.gravityY && g.range.bottom == g.gravityY / 3.0
  {
    var gravityY := Lerp(MIN_GRAVITY, MAX_GRAVITY, slider);
    var computed := EnergyRange(-2.0 * BOX_HEIGHT * gravityY, gravityY / 3.0);
    Gravity(gravityY, if gravityY == 0.0 then EnergyRange(1.0, 0.0) else computed)
  }

  datatype Vec = Vec(x: real, y: real)
  {
    function Minus(o: Vec): Vec { Vec(x - o.x, y - o.y) }
    function Scale(k: real): Vec { Vec(x * k, y * k) }
  }

  /** Strictly inside the box's open rectangle. */
  predicate InBox(p: Vec)
  {
    -BOX_WIDTH < p.x < BOX_WIDTH && -BOX_HEIGHT < p.y < BOX_HEIGHT
  }

  /** `isInTouch` and `touchStart`. */
  datatype Touch = Touch(inTouch: bool, start: Vec)

  /** Mouse button pressed at world point `p`: a touch starts only inside the box and only if none is running. */
  function MouseDown(t: Touch, p: Vec): (r: Touch)
    ensures r.inTouch <==> t.inTouch || InBox(p)
    ensures !t.inTouch && InBox(p) ==> r.start == p
    ensures t.inTouch || !InBox(p) ==> r == t
  {
    if !t.inTouch && InBox(p) then Touch(true, p) else t
  }

  datatype Launch = Launch(start: Vec, velocity: Vec)
  datatype Release = Release(touch: Touch, launch: Option<Launch>)

  /** LaunchBall's velocity: the drag vector scaled by VELOCITY_MULTIPLIER. */
  function LaunchVelocity(start: Vec, end: Vec): Vec
  {
    end.Minus(start).Scale(VELOCITY_MULTIPLIER)
  }

  /** Mouse button released at `p`: launch from the touch start iff a touch was running; no touch remains. */
  function MouseUp(t: Touch, p: Vec): (r: Release)
    ensures !r.touch.inTouch
    ensures r.launch.Some? <==> t.inTouch
    ensures r.launch.Some? ==> r.launch.value == Launch(t.start, LaunchVelocity(t.start, p))
  {
    Release(t.(inTouch := false), if t.inTouch then Some(Launch(t.start, LaunchVelocity(t.start, p))) else None)
  }

  /** The mouse events of one frame and the pointer's world position. */
  datatype Input = Input(down: bool, up: bool, mouse: Vec)

  /** A press, then a release, in the order Update checks them. */
  function HandleMouse(t: Touch, input: Input): (r: Release)
    ensures input.up ==> !r.touch.inTouch
    ensures r.launch.Some? <==> input.up && (t.inTouch || (input.down && InBox(input.mouse)))
    ensures input.up && t.inTouch ==> r.launch == Some(Launch(t.start, LaunchVelocity(t.start, input.mouse)))
    ensures input.up && !t.inTouch && input.down && InBox(input.mouse) ==>
      r.launch == Some(Launch(input.mouse, Vec(0.0, 0.0)))
    ensures !input.up ==> r.launch.None? && r.touch == (if input.down then MouseDown(t, input.mouse) else t)
  {
    var touched := if input.down then MouseDown(t, input.mouse) else t;
    if input.up then MouseUp(touched, input.mouse) else Release(touched, None)
  }

  /** The manager's state across frames. */
  datatype Game = Game(firstUpdate: bool, touch: Touch, gravity: Gravity)

  function InitialGame(): (g: Game)
    ensures g.gravity.range.Valid() && !g.touch.inTouch
  {
    Game(true, Touch(false, Vec(0.0, 0.0)), Gravity(DEFAULT_GRAVITY, INITIAL_RANGE))
  }

  datatype Step = Step(game: Game, launch: Option<Launch>)

  /**
    Update: on the first frame apply the gravity slider; then handle a press
    and a release, in that order. The energy range stays non-degenerate in
    every frame, and a release always ends the touch.
   */
  function Frame(g: Game, slider: real, input: Input): (r: Step)
    ensures !r.game.firstUpdate
    ensures g.gravity.range.Valid() ==> r.game.gravity.range.Valid()
    ensures g.firstUpdate ==> r.game.gravity == UpdateGravity(slider)
    ensures !g.firstUpdate ==> r.game.gravity == g.gravity
    ensures input.up ==> !r.game.touch.inTouch
    ensures r.launch.Some? <==> input.up && (g.touch.inTouch || (input.down && InBox(input.mouse)))
    ensures input.up && g.touch.inTouch ==> r.launch == Some(Launch(g.touch.start, LaunchVelocity(g.touch.start, input.mouse)))
    ensures !input.up ==> r.launch.None? && r.game.touch == (if input.down then MouseDown(g.touch, input.mouse) else g.touch)
  {
    var gravity := if g.firstUpdate then UpdateGravity(slider) else g.gravity;
    var rel := HandleMouse(g.touch, input);
    Step(Game(false, rel.touch, gravity), rel.launch)
  }

  /** The gravity slider's own callback. */
  function OnGravitySlider(g: Game, slider: real): (r: Game)
    ensures r.gravity.range.Valid() && r.touch == g.touch
  {
    g.(gravity := UpdateGravity(slider))
  }

  /**
    LaunchBall: spawn a ball at the drag start with the scaled drag vector
    as velocity, and open its voice.
   */
  method LaunchBall(e: Engine, start: Vec, end: Vec, mass: real, gravityScale: real, env: Env)
    returns (ball: Ball, e': Engine)
    requires WellFormed(e) && env.range.top != env.range.bottom
    ensures WellFormed(e') && ball.id < NUM_VOICES
    ensures ball.body.x == start.x && ball.body.y == start.y
    ensures ball.body.vx == (end.x - start.x) * VELOCITY_MULTIPLIER
    ensures ball.body.vy == (end.y - start.y) * VELOCITY_MULTIPLIER
    ensures Consistent(e) ==> Consistent(e')
    ensures (exists j :: 0 <= j < NUM_VOICES && !e.taken[j]) ==>
      !e.taken[ball.id] && e'.taken[ball.id] && e'.slots[ball.id].Active()
      && e'.slots[ball.id].rate == SampleRate(ball.body.vx, env.sampleLength)
  {
    var v := LaunchVelocity(start, end);
    ball, e' := Init(e, Body(start.x, start.y, v.x, v.y, mass, gravityScale), env);
  }

  /** Every ball's id is a slot index, as OpenNewVoice guarantees. */
  predicate IdsInRange(balls: seq<Ball>)
  {
    forall i :: 0 <= i < |balls| ==> balls[i].id < NUM_VOICES
  }

  /** DestroySelf on every ball in order; ids shared by two balls are freed twice. */
  function DestroyAll(e: Engine, balls: seq<Ball>): (r: Engine)
    requires WellFormed(e) && IdsInRange(balls)
    ensures WellFormed(r)
    ensures forall i :: 0 <= i < |balls| ==> !r.taken[balls[i].id] && !r.slots[balls[i].id].Active()
    ensures forall j :: 0 <= j < NUM_VOICES && (forall i :: 0 <= i < |balls| ==> balls[i].id != j) ==>
      r.taken[j] == e.taken[j] && r.slots[j] == e.slots[j]
    ensures forall j :: 0 <= j < NUM_VOICES ==>
      r.slots[j].gain == e.slots[j].gain && r.slots[j].pos == e.slots[j].pos
    ensures Consistent(e) ==> Consistent(r)
    decreases |balls|
  {
    if |balls| == 0 then e
    else
      var r := DestroyAll(DestroySelf(e, balls[0]), balls[1..]);
      assert forall i :: 1 <= i < |balls| ==> balls[i] == balls[1..][i - 1];
      r
  }

  /**
    OnClearBox: every ball releases its voice, then the kill event is
    broadcast. No listener for it is running, so every buffer keeps the gain
    it had and a freed voice goes on sounding until its buffer runs out.
    Ids not held by any ball keep their taken state.
   */
  function OnClearBox(e: Engine, balls: seq<Ball>): (r: Engine)
    requires WellFormed(e) && IdsInRange(balls)
    ensures WellFormed(r)
    ensures forall i :: 0 <= i < |balls| ==> !r.taken[balls[i].id] && !r.slots[balls[i].id].Active()
    ensures forall j :: 0 <= j < NUM_VOICES ==> r.slots[j].gain == e.slots[j].gain
    ensures forall j :: 0 <= j < NUM_VOICES && (forall i :: 0 <= i < |balls| ==> balls[i].id != j) ==>
      r.taken[j] == e.taken[j]
    ensures Consistent(e) ==> Consistent(r)
  {
    KillAll(DestroyAll(e, balls), SPORKED)
  }
}

=== FILE: mathf.dfy ===
/** The two Unity Mathf helpers the game relies on, over the reals. */
module Mathf {

  /** Mathf.Clamp: below the range gives its lower end, above gives its upper end. */
  function Clamp(v: real, lo: real, hi: real): (r: real)
    requires lo <= hi
    ensures lo <= r <= hi
    ensures lo <= v <= hi ==> r == v
    ensures v < lo ==> r == lo
    ensures v > hi ==> r == hi
  {
    if v < lo then lo else if v > hi then hi else v
  }

  /**
    Mathf.Lerp: the parameter is clamped to [0,1] before interpolating, so
    parameters outside it give the nearer end.
   */
  function Lerp(a: real, b: real, t: real): (r: real)
    ensures 0.0 <= t <= 1.0 ==> r == a + (b - a) * t
    ensures t <= 0.0 ==> r == a
    ensures t >= 1.0 ==> r == b
  {
    a + (b - a) * Clamp(t, 0.0, 1.0)
  }
}

=== FILE: sample_ball.dfy ===
/**
  SampleBall.cs: how one ball's physical state becomes the parameters of
  its voice, and when the ball gives its voice back. Physics values
  (position, velocity, mass, gravity) arrive as inputs.
 */
module SampleBall {
  import opened Settings
  import opened VoiceSlot
  import opened VoicePool
  import opened Mathf

  /** A coordinate mapped linearly from [-extent, extent] onto [0,1], before clamping. */
  function AxisRaw(p: real, extent: real): real
    requires extent > 0.0
  {
    (p / extent + 1.0) / 2.0
  }

  /** The centre of the box maps to 0.5 and the two reachable walls to 0 and 1. */
  lemma AxisRawLandmarks(extent: real)
    requires extent > 0.0
    ensures AxisRaw(0.0, extent) == 0.5
    ensures AxisRaw(extent, extent) == 1.0
    ensures AxisRaw(-extent, extent) == 0.0
  {
  }

  /** The unclamped map never reverses the order of two positions. */
  lemma AxisRawMonotone(p: real, q: real, extent: real)
    requires extent > 0.0 && p <= q
    ensures AxisRaw(p, extent) <= AxisRaw(q, extent)
  {
    assert q / extent - p / extent == (q - p) / extent;
  }

  /** Span a ball's centre can reach horizontally and vertically. */
  const X_EXTENT: real := BOX_WIDTH - BALL_RADIUS
  const Y_EXTENT: real := BOX_HEIGHT - BALL_RADIUS

  datatype Coords = Coords(x: real, y: real)

  /** GetNormalizedCoords: both components lie in [0,1] wherever the ball is. */
  function NormalizedCoords(px: real, py: real): (c: Coords)
    ensures 0.0 <= c.x <= 1.0 && 0.0 <= c.y <= 1.0
    ensures -X_EXTENT <= px <= X_EXTENT ==> c.x == (px / X_EXTENT + 1.0) / 2.0
    ensures -Y_EXTENT <= py <= Y_EXTENT ==> c.y == (py / Y_EXTENT + 1.0) / 2.0
  {
    Coords(Clamp(AxisRaw(px, X_EXTENT), 0.0, 1.0), Clamp(AxisRaw(py, Y_EXTENT), 0.0, 1.0))
  }

  /** The physical state of a ball as the physics engine reports it. */
  datatype Body = Body(x: real, y: real, vx: real, vy: real, mass: real, gravityScale: real)

  /**
    GetTotalEnergy: kinetic energy plus potential energy measured from the
    lowest height the ball's centre can reach. The source squares a square
    root of the squared speed; over the reals that is the squared speed.
   */
  function TotalEnergy(b: Body, gravityY: real): (e: real)
    ensures b.vx == 0.0 && b.vy == 0.0 && b.y == -(BOX_HEIGHT - BALL_RADIUS) ==> e == 0.0
  {
    var kinetic := 0.5 * b.mass * (b.vx * b.vx + b.vy * b.vy);
    var height := b.y - (-(BOX_HEIGHT - BALL_RADIUS));
    var gravity := -gravityY * b.gravityScale;
    kinetic + b.mass * gravity * height
  }

  /**
    Under downward gravity, with a non-negative mass and gravity scale, a
    ball anywhere above the lowest reachable height has non-negative total
    energy.
   */
  lemma EnergyNonNegativeAboveFloor(b: Body, gravityY: real)
    requires b.mass >= 0.0 && b.gravityScale >= 0.0 && gravityY <= 0.0
    requires b.y >= -(BOX_HEIGHT - BALL_RADIUS)
    ensures TotalEnergy(b, gravityY) >= 0.0
  {
    var speed2 := b.vx * b.vx + b.vy * b.vy;
    assert b.vx * b.vx >= 0.0 && b.vy * b.vy >= 0.0;
    assert b.mass * speed2 >= 0.0;
    var gravity := -gravityY * b.gravityScale;
    assert gravity >= 0.0;
    var height := b.y - (-(BOX_HEIGHT - BALL_RADIUS));
    assert b.mass * gravity >= 0.0;
    assert b.mass * gravity * height >= 0.0;
  }

  /**
    GetNormalizedEnergy: the total energy placed in the energy range and
    clamped. The caller keeps the range non-degenerate (see GameManager).
   */
  function NormalizedEnergy(energy: real, range: EnergyRange): (r: real)
    requires range.top != range.bottom
    ensures 0.0 <= r <= 1.0
    ensures range.Valid() && energy <= range.bottom ==> r == 0.0
    ensures range.Valid() && energy >= range.top ==> r == 1.0
    ensures range.Valid() && range.bottom < energy < range.top ==> 0.0 < r < 1.0
    ensures range.Valid() && range.bottom <= energy <= range.top ==>
      r == (energy - range.bottom) / (range.top - range.bottom)
  {
    var span := range.top - range.bottom;
    var r := Clamp((energy - range.bottom) / span, 0.0, 1.0);
    if range.Valid() then NormalizeWithinSpan(energy - range.bottom, span); r else r
  }

  /** Division by a positive span keeps the sign and compares with 1 as the numerator compares with the span. */
  lemma NormalizeWithinSpan(d: real, span: real)
    requires span > 0.0
    ensures d <= 0.0 ==> d / span <= 0.0
    ensures d >= span ==> d / span >= 1.0
    ensures 0.0 < d < span ==> 0.0 < d / span < 1.0
  {
    var q := d / span;
    assert q * span == d;
    if q >= 1.0 {
      assert (q - 1.0) * span >= 0.0;
    }
  }

  /**
    A ball resting on the floor has zero total energy; with any non-zero
    gravity its normalised energy is 1/25, not 0, because ENERGY_BOTTOM is
    a third of the (negative) gravity. Such a ball is therefore never
    released by the energy rule.
   */
  lemma RestingBallKeepsEnergy(b: Body, gravityY: real)
    requires gravityY < 0.0
    requires b.vx == 0.0 && b.vy == 0.0 && b.y == -(BOX_HEIGHT - BALL_RADIUS)
    ensures TotalEnergy(b, gravityY) == 0.0
    ensures NormalizedEnergy(0.0, EnergyRange(-2.0 * BOX_HEIGHT * gravityY, gravityY / 3.0)) == 1.0 / 25.0
  {
    var range := EnergyRange(-2.0 * BOX_HEIGHT * gravityY, gravityY / 3.0);
    assert range.top - range.bottom == -25.0 * gravityY / 3.0;
    assert (0.0 - range.bottom) / (range.top - range.bottom) == 1.0 / 25.0;
  }

  /**
    GetSampleRateFromCurrentVelocity: play the whole sample in the time the
    ball needs to cross the box. With zero horizontal velocity the travel
    time is an infinite double and the rate comes out as 0.
   */
  function SampleRate(vx: real, sampleLength: real): (rate: real)
    ensures vx != 0.0 ==> rate == sampleLength * vx / (2.0 * BOX_WIDTH)
    ensures vx == 0.0 ==> rate == 0.0
  {
    if vx == 0.0 then 0.0
    else
      var travelTime := 2.0 * BOX_WIDTH / vx;
      assert sampleLength / travelTime == sampleLength * vx / (2.0 * BOX_WIDTH);
      sampleLength / travelTime
  }

  /** With a loaded sample, the rate's sign is the horizontal velocity's sign. */
  lemma RateSignFollowsVelocity(vx: real, sampleLength: real)
    requires sampleLength > 0.0
    ensures SampleRate(vx, sampleLength) > 0.0 <==> vx > 0.0
    ensures SampleRate(vx, sampleLength) < 0.0 <==> vx < 0.0
  {
    if vx > 0.0 {
      assert sampleLength * vx > 0.0;
    } else if vx < 0.0 {
      assert sampleLength * vx < 0.0;
    }
  }

  datatype Color = Color(hue: real, saturation: real)

  /** UpdateColor: hue from x, saturation from y (brightness is fixed at 1). */
  function ColorOf(normX: real, normY: real): (c: Color)
    ensures 0.0 <= normX <= 1.0 ==> 0.0 <= c.hue <= 0.5
    ensures 0.0 <= normY <= 1.0 ==> 0.25 <= c.saturation <= 1.0
  {
    Color(normX / 2.0, 3.0 * normY / 4.0 + 0.25)
  }

  /**
    UpdateColor's opacity is the square root of the normalised energy; any
    non-negative root of an energy in [0,1] lies in [0,1].
   */
  lemma OpacityBounds(normEnergy: real, opacity: real)
    requires 0.0 <= normEnergy <= 1.0
    requires opacity >= 0.0 && opacity * opacity == normEnergy
    ensures 0.0 <= opacity <= 1.0
  {
  }

  /** What the ball reads from the rest of the game each frame. */
  datatype Env = Env(gravityY: real, range: EnergyRange,
                     screenWidth: real, screenHeight: real, sampleLength: real)

  datatype Ball = Ball(id: nat, body: Body)

  function BallCoords(b: Body): Coords
  {
    NormalizedCoords(b.x, b.y)
  }

  function BallEnergy(b: Body, env: Env): real
    requires env.range.top != env.range.bottom
  {
    NormalizedEnergy(TotalEnergy(b, env.gravityY), env.range)
  }

  /** The ball has left the visible area. */
  predicate Escaped(b: Body, env: Env)
  {
    b.x < -env.screenWidth || b.x > env.screenWidth || b.y < -env.screenHeight || b.y > env.screenHeight
  }

  /**
    Init: open a voice for a ball that has just been given its velocity,
    with its normalised position, energy and velocity-derived rate. When a
    voice is free the ball gets the lowest free id, and its voice starts
    playing from the fraction of the sample given by its x position at the
    next tick.
   */
  method Init(e: Engine, b: Body, env: Env) returns (ball: Ball, e': Engine)
    requires WellFormed(e) && env.range.top != env.range.bottom
    ensures WellFormed(e') && ball.body == b && ball.id < NUM_VOICES
    ensures Consistent(e) ==> Consistent(e')
    ensures (exists j :: 0 <= j < NUM_VOICES && !e.taken[j]) ==>
      && !e.taken[ball.id] && (forall j :: 0 <= j < ball.id ==> e.taken[j])
      && e'.taken[ball.id] && e'.slots[ball.id].Active()
      && e'.slots[ball.id].pendingPos == BallCoords(b).x
      && 0.0 <= e'.slots[ball.id].pendingPos <= 1.0
      && e'.slots[ball.id].filterMod == BallCoords(b).y
      && e'.slots[ball.id].volume == BallEnergy(b, env)
      && e'.slots[ball.id].rate == SampleRate(b.vx, env.sampleLength)
    ensures (forall j :: 0 <= j < NUM_VOICES ==> e.taken[j]) ==> ball.id == 0 && e' == e
    ensures forall j :: 0 <= j < NUM_VOICES && j != ball.id ==>
      e'.slots[j] == e.slots[j] && e'.taken[j] == e.taken[j]
  {
    var c := BallCoords(b);
    var energy := BallEnergy(b, env);
    var rate := SampleRate(b.vx, env.sampleLength);
    var id;
    id, e' := OpenNewVoice(e, c.x, c.y, rate, energy);
    ball := Ball(id, b);
  }

  /** DestroySelf: give back exactly this ball's voice; a second call changes nothing. */
  function DestroySelf(e: Engine, ball: Ball): (r: Engine)
    requires WellFormed(e) && ball.id < NUM_VOICES
    ensures WellFormed(r) && !r.taken[ball.id] && !r.slots[ball.id].Active()
    ensures forall j :: 0 <= j < NUM_VOICES && j != ball.id ==> r.taken[j] == e.taken[j] && r.slots[j] == e.slots[j]
    ensures FreeVoice(r, ball.id) == r
  {
    FreeVoiceIdempotent(e, ball.id);
    FreeVoice(e, ball.id)
  }

  datatype UpdateResult = UpdateResult(engine: Engine, destroyed: bool)

  /**
    Update: publish the ball's current volume and filter modulation, then
    release its voice if its normalised energy has reached 0 or it has left
    the screen. Both conditions may hold in one frame, freeing the voice
    twice. A near-zero horizontal velocity has no effect.
   */
  function Update(e: Engine, ball: Ball, env: Env): (r: UpdateResult)
    requires WellFormed(e) && ball.id < NUM_VOICES && env.range.top != env.range.bottom
    ensures WellFormed(r.engine)
    ensures r.destroyed <==> BallEnergy(ball.body, env) <= 0.0 || Escaped(ball.body, env)
    ensures r.engine.slots[ball.id].filterMod == BallCoords(ball.body).y
    ensures r.destroyed ==>
      && !r.engine.taken[ball.id] && !r.engine.slots[ball.id].Active()
      && r.engine.slots[ball.id].volume == 0.0 && r.engine.slots[ball.id].pendingPos == NO_SEEK
    ensures !r.destroyed ==>
      && r.engine.taken == e.taken
      && r.engine.slots[ball.id] ==
           e.slots[ball.id].(volume := BallEnergy(ball.body, env), filterMod := BallCoords(ball.body).y)
    ensures forall j :: 0 <= j < NUM_VOICES && j != ball.id ==>
      r.engine.taken[j] == e.taken[j] && r.engine.slots[j] == e.slots[j]
    ensures Consistent(e) ==> Consistent(r.engine)
  {
    var c := BallCoords(ball.body);
    var energy := BallEnergy(ball.body, env);
    var e1 := UpdateModulatedData(e, ball.id, c.x, c.y, energy);
    var e2 := if energy <= 0.0 then DestroySelf(e1, ball) else e1;
    var e3 := if Escaped(ball.body, env) then DestroySelf(e2, ball) else e2;
    UpdateResult(e3, energy <= 0.0 || Escaped(ball.body, env))
  }

  datatype WallTag = VerticalWall | HorizontalWall | Untagged

  /**
    OnCollisionEnter2D: hitting a side wall republishes the rate for the
    ball's current velocity; hitting the floor or ceiling changes nothing.
   */
  function OnCollision(e: Engine, ball: Ball, tag: WallTag, env: Env): (r: Engine)
    requires WellFormed(e) && ball.id < NUM_VOICES
    ensures WellFormed(r) && r.taken == e.taken
    ensures tag.VerticalWall? ==>
      r.slots[ball.id] == e.slots[ball.id].(rate := SampleRate(ball.body.vx, env.sampleLength))
    ensures !tag.VerticalWall? ==> r == e
    ensures forall j :: 0 <= j < NUM_VOICES && j != ball.id ==> r.slots[j] == e.slots[j]
  {
    match tag
    case VerticalWall => RetriggerBuffer(e, ball.id, SampleRate(ball.body.vx, env.sampleLength))
    case HorizontalWall => e
    case Untagged => e
  }
}

=== FILE: sample_select.dfy ===
/**
  SampleSelectManager.cs: the sample dropdown, the record button and the
  playback button, and the recording script's start/stop handlers. The
  recorded file custom.wav is usable only after a recording has been
  completed and while no new one is in progress.
 */
module SampleSelect {
  import opened Wrappers
  import opened VoicePool
  import opened SampleBall
  import opened GameManager

  const FILENAMES: seq<string> :=
    ["Dialup.wav", "Bell.wav", "HELL_YEAH.wav", "oooooahhh.wav", "Breakbeat.wav", "River.wav", "custom.wav"]

  /** Dropdown index of the user's recording. */
  const CUSTOM_INDEX: nat := 6

  /**
    The recording script's state: its `isRecording` flag and the number of
    recorder shreds it has added and not yet removed.
   */
  datatype Recorder = Recorder(recording: bool, shreds: int)
  {
    /** At most one recorder runs, and exactly when the flag says so. */
    predicate Valid() { shreds == if recording then 1 else 0 }
  }

  /** startRecordingMethod: add a recorder only if none is recording. */
  function StartRecording(r: Recorder): (r': Recorder)
    ensures r'.recording
    ensures r.recording ==> r' == r
    ensures !r.recording ==> r'.shreds == r.shreds + 1
    ensures r.Valid() ==> r'.Valid()
  {
    if !r.recording then Recorder(true, r.shreds + 1) else r
  }

  /** stopRecordingMethod: remove the recorder only if one is recording. */
  function StopRecording(r: Recorder): (r': Recorder)
    ensures !r'.recording
    ensures !r.recording ==> r' == r
    ensures r.recording ==> r'.shreds == r.shreds - 1
    ensures r.Valid() ==> r'.Valid()
  {
    if r.recording then Recorder(false, r.shreds - 1) else r
  }

  /** Start (true) and stop (false) events, handled in order. */
  function HandleEvents(r: Recorder, starts: seq<bool>): Recorder
    decreases |starts|
  {
    if |starts| == 0 then r
    else HandleEvents(if starts[0] then StartRecording(r) else StopRecording(r), starts[1..])
  }

  /** However the events arrive, there is never more than one recorder. */
  lemma {:induction false} NeverTwoRecorders(r: Recorder, starts: seq<bool>)
    requires r.Valid()
    ensures HandleEvents(r, starts).Valid() && HandleEvents(r, starts).shreds <= 1
    decreases |starts|
  {
    if |starts| > 0 {
      NeverTwoRecorders(if starts[0] then StartRecording(r) else StopRecording(r), starts[1..]);
    }
  }

  /** The manager's fields, the playback button's state and the recording script. */
  datatype Selector = Selector(isRecording: bool, hasRecorded: bool, playbackInteractable: bool,
                               recorder: Recorder)

  /** The game side and the recording script agree on whether a recording runs. */
  predicate Synced(s: Selector)
  {
    s.recorder.Valid() && s.recorder.recording == s.isRecording
  }

  /** Nothing recorded, nothing recording; the button's initial state comes from the scene. */
  function InitialSelector(playbackInteractable: bool): (s: Selector)
    ensures Synced(s) && !s.hasRecorded
  {
    Selector(false, false, playbackInteractable, Recorder(false, 0))
  }

  /** custom.wav is chosen but no finished recording is available. */
  predicate CustomUnavailable(s: Selector, value: nat)
  {
    value == CUSTOM_INDEX && (s.isRecording || !s.hasRecorded)
  }

  datatype DropdownEffect = Ignored | ClearAndReload(filename: string)

  /**
    OnDropdownChanged: choosing custom.wav without a finished recording does
    nothing; any other choice clears the box and reloads the chosen file.
   */
  function OnDropdownChanged(s: Selector, value: nat): (r: DropdownEffect)
    requires value < |FILENAMES|
    ensures r.Ignored? <==> value == CUSTOM_INDEX && (s.isRecording || !s.hasRecorded)
    ensures r == ClearAndReload("custom.wav") ==> s.hasRecorded && !s.isRecording
    ensures value != CUSTOM_INDEX ==> r == ClearAndReload(FILENAMES[value]) && r.filename != "custom.wav"
    ensures !r.Ignored? ==> r == ClearAndReload(FILENAMES[value])
  {
    if CustomUnavailable(s, value) then Ignored else ClearAndReload(FILENAMES[value])
  }

  /** OnPlaybackClicked: the same guard as the dropdown, then play the chosen file once. */
  function OnPlaybackClicked(s: Selector, value: nat): (r: Option<string>)
    requires value < |FILENAMES|
    ensures r.None? <==> OnDropdownChanged(s, value).Ignored?
    ensures r.Some? ==> r.value == FILENAMES[value]
  {
    if CustomUnavailable(s, value) then None else Some(FILENAMES[value])
  }

  /**
    OnRecordClicked: toggle recording. Stopping marks a recording as made
    and enables playback; starting disables playback. The event reaches the
    recording script, which starts or stops its recorder.
   */
  function OnRecordClicked(s: Selector): (r: Selector)
    ensures r.isRecording == !s.isRecording
    ensures r.playbackInteractable == !r.isRecording
    ensures s.hasRecorded ==> r.hasRecorded
    ensures r.hasRecorded && !s.hasRecorded ==> s.isRecording
    ensures s.isRecording ==> r.hasRecorded
    ensures Synced(s) ==> Synced(r) && r.recorder.shreds <= 1
  {
    if s.isRecording then
      Selector(false, true, true, StopRecording(s.recorder))
    else
      Selector(true, s.hasRecorded, false, StartRecording(s.recorder))
  }

  /** What the dropdown acts on: the engine, the balls in the box and the loaded file name. */
  datatype Scene = Scene(engine: Engine, balls: seq<Ball>, filename: string)

  /**
    The effect of a dropdown change on the scene: nothing when ignored;
    otherwise every ball's voice is freed, every buffer keeps its gain (the
    kill broadcast reaches no listener), the balls are gone and the chosen
    file is the one loaded.
   */
  function ApplyDropdown(sc: Scene, s: Selector, value: nat): (r: Scene)
    requires WellFormed(sc.engine) && IdsInRange(sc.balls) && value < |FILENAMES|
    ensures CustomUnavailable(s, value) ==> r == sc
    ensures !CustomUnavailable(s, value) ==>
      && r.balls == [] && r.filename == FILENAMES[value] && WellFormed(r.engine)
      && (forall i :: 0 <= i < |sc.balls| ==> !r.engine.taken[sc.balls[i].id])
      && (forall j :: 0 <= j < NUM_VOICES ==> r.engine.slots[j].gain == sc.engine.slots[j].gain)
    ensures Consistent(sc.engine) ==> Consistent(r.engine)
  {
    match OnDropdownChanged(s, value)
    case Ignored => sc
    case ClearAndReload(f) => Scene(OnClearBox(sc.engine, sc.balls), [], f)
  }
}

=== FILE: settings.dfy ===
/**
  The static fields of GameManager.cs that the rest of the game reads:
  box geometry, gravity range, launch scaling, and the energy range used
  to normalise a ball's energy. Float constants are written as the decimal
  values the source spells out.
 */
module Settings {

  /** Half-extents of the box and the radius of a ball. */
  const BOX_WIDTH: real := 4.0
  const BOX_HEIGHT: real := 4.0
  const BALL_RADIUS: real := 0.2

  /** Gravity slider range: slider 0 gives MIN_GRAVITY, slider 1 gives MAX_GRAVITY. */
  const MAX_GRAVITY: real := -40.0
  const MIN_GRAVITY: real := 0.0

  /** Scale from a drag vector to a launch velocity. */
  const VELOCITY_MULTIPLIER: real := 5.0

  /** Unity's default vertical gravity, in effect until the first frame sets it. */
  const DEFAULT_GRAVITY: real := -9.81

  /** ENERGY_TOP and ENERGY_BOTTOM: the total energies mapped to 1 and 0. */
  datatype EnergyRange = EnergyRange(top: real, bottom: real)
  {
    /** The normalisation denominator is non-zero, indeed positive. */
    predicate Valid() { top > bottom }
  }

  /** The values the statics are declared with, before UpdateGravity first runs. */
  const INITIAL_RANGE: EnergyRange := EnergyRange(8.0 * 9.81, 3.0)
}

=== FILE: voice_pool.dfy ===
/**
  The game-side half of SoundManager.cs: the `takenIDs` table of NUM_VOICES
  booleans and the calls that publish per-slot parameters to the audio
  script. An `Engine` pairs that table with the slot arrays the audio
  script holds; the cross-runtime setters are modelled as direct writes.
 */
module VoicePool {
  import opened VoiceSlot
  import ControlTick

  const NUM_VOICES: nat := 100

  datatype Engine = Engine(taken: seq<bool>, slots: seq<Slot>)

  predicate WellFormed(e: Engine)
  {
    |e.taken| == NUM_VOICES && |e.slots| == NUM_VOICES
  }

  /**
    The pool's bookkeeping agrees with the audio script: a slot is taken
    exactly when its active flag is set, and only active slots carry a
    pending seek.
   */
  predicate Consistent(e: Engine)
  {
    && WellFormed(e)
    && (forall i :: 0 <= i < NUM_VOICES ==> (e.taken[i] <==> e.slots[i].Active()))
    && (forall i :: 0 <= i < NUM_VOICES && e.slots[i].SeekPending() ==> e.slots[i].Active())
  }

  /** Number of taken slots. */
  function CountTaken(taken: seq<bool>): (n: nat)
    ensures n <= |taken|
    ensures forall i :: 0 <= i < |taken| && taken[i] ==> n >= 1
    ensures n == |taken| <==> forall i :: 0 <= i < |taken| ==> taken[i]
  {
    if |taken| == 0 then 0
    else CountTaken(taken[..|taken| - 1]) + (if taken[|taken| - 1] then 1 else 0)
  }

  /** Taking a free slot adds one to the count; freeing a taken slot removes one. */
  lemma {:induction false} CountTakenUpdate(taken: seq<bool>, i: nat, b: bool)
    requires i < |taken|
    ensures CountTaken(taken[i := b]) ==
      CountTaken(taken) - (if taken[i] then 1 else 0) + (if b then 1 else 0)
    decreases |taken|
  {
    var last := |taken| - 1;
    var t' := taken[i := b];
    if i == last {
      assert t'[..last] == taken[..last];
    } else {
      assert t'[..last] == taken[..last][i := b];
      CountTakenUpdate(taken[..last], i, b);
    }
  }

  /** Under consistency, the number of taken slots is the tick's active count. */
  lemma {:induction false} CountTakenIsCountActive(taken: seq<bool>, slots: seq<Slot>)
    requires |taken| == |slots|
    requires forall i :: 0 <= i < |taken| ==> (taken[i] <==> slots[i].Active())
    ensures CountTaken(taken) == CountActive(slots)
    decreases |taken|
  {
    if |taken| > 0 {
      CountTakenIsCountActive(taken[..|taken| - 1], slots[..|slots| - 1]);
    }
  }

  /** Start(): INITIAL_SETUP in every slot and every id free. */
  function Initial(): (e: Engine)
    ensures Consistent(e)
    ensures CountTaken(e.taken) == 0
  {
    var e := Engine(seq(NUM_VOICES, _ => false), seq(NUM_VOICES, _ => InitialSlot()));
    assert CountTaken(e.taken) == 0 by {
      ZeroWhenNoneTaken(e.taken);
    }
    e
  }

  lemma {:induction false} ZeroWhenNoneTaken(taken: seq<bool>)
    requires forall i :: 0 <= i < |taken| ==> !taken[i]
    ensures CountTaken(taken) == 0
    decreases |taken|
  {
    if |taken| > 0 {
      ZeroWhenNoneTaken(taken[..|taken| - 1]);
    }
  }

  /** The parameters OpenNewVoice publishes for a newly taken slot. */
  function Opened(s: Slot, normX: real, normY: real, rate: real, normEnergy: real): Slot
  {
    s.(rate := rate, volume := normEnergy, filterMod := normY, pendingPos := normX, activeFlag := 1)
  }

  /**
    OpenNewVoice: take the lowest free id and publish its rate, volume,
    filter modulation and start position, and raise its active flag. When
    every id is taken the call logs and returns 0, which is also a valid id,
    and changes nothing.
   */
  method OpenNewVoice(e: Engine, normX: real, normY: real, rate: real, normEnergy: real)
    returns (id: nat, e': Engine)
    requires WellFormed(e)
    ensures WellFormed(e') && id < NUM_VOICES
    ensures (exists j :: 0 <= j < NUM_VOICES && !e.taken[j]) ==>
      && !e.taken[id]
      && (forall j :: 0 <= j < id ==> e.taken[j])
      && e'.taken == e.taken[id := true]
      && CountTaken(e'.taken) == CountTaken(e.taken) + 1
      && e'.slots[id].rate == rate && e'.slots[id].volume == normEnergy
      && e'.slots[id].filterMod == normY && e'.slots[id].pendingPos == normX
      && e'.slots[id].activeFlag == 1
      && e'.slots[id].appliedRate == e.slots[id].appliedRate && e'.slots[id].pos == e.slots[id].pos
      && e'.slots[id].gain == e.slots[id].gain && e'.slots[id].cutoff == e.slots[id].cutoff
      && (forall j :: 0 <= j < NUM_VOICES && j != id ==> e'.slots[j] == e.slots[j])
    ensures (forall j :: 0 <= j < NUM_VOICES ==> e.taken[j]) ==> id == 0 && e' == e
    ensures Consistent(e) ==> Consistent(e')
  {
    for i := 0 to NUM_VOICES
      invariant forall j :: 0 <= j < i ==> e.taken[j]
    {
      if !e.taken[i] {
        id := i;
        e' := Engine(e.taken[i := true], e.slots[i := Opened(e.slots[i], normX, normY, rate, normEnergy)]);
        CountTakenUpdate(e.taken, i, true);
        return;
      }
    }
    // "ERROR - No open voices"
    id := 0;
    e' := e;
  }

  /**
    FreeVoice: release the id, lower its active flag, cancel any pending
    seek and zero its published volume. The audio script's gain for the
    slot is not written here.
   */
  function FreeVoice(e: Engine, id: nat): (r: Engine)
    requires WellFormed(e) && id < NUM_VOICES
    ensures WellFormed(r)
    ensures !r.taken[id] && !r.slots[id].Active() && r.slots[id].pendingPos == NO_SEEK
    ensures r.slots[id].volume == 0.0
    ensures r.slots[id].rate == e.slots[id].rate && r.slots[id].filterMod == e.slots[id].filterMod
    ensures r.slots[id].gain == e.slots[id].gain && r.slots[id].pos == e.slots[id].pos
    ensures forall j :: 0 <= j < NUM_VOICES && j != id ==> r.taken[j] == e.taken[j] && r.slots[j] == e.slots[j]
    ensures CountTaken(r.taken) == CountTaken(e.taken) - (if e.taken[id] then 1 else 0)
    ensures Consistent(e) ==> Consistent(r)
  {
    CountTakenUpdate(e.taken, id, false);
    Engine(e.taken[id := false],
           e.slots[id := e.slots[id].(activeFlag := 0, pendingPos := NO_SEEK, volume := 0.0)])
  }

  /** Freeing the same id twice is the same as freeing it once. */
  lemma FreeVoiceIdempotent(e: Engine, id: nat)
    requires WellFormed(e) && id < NUM_VOICES
    ensures FreeVoice(FreeVoice(e, id), id) == FreeVoice(e, id)
  {
  }

  /** UpdateModulatedData: publish volume and filter modulation; the x position is not sent. */
  function UpdateModulatedData(e: Engine, id: nat, normX: real, normY: real, normEnergy: real): (r: Engine)
    requires WellFormed(e) && id < NUM_VOICES
    ensures WellFormed(r) && r.taken == e.taken
    ensures r.slots[id] == e.slots[id].(volume := normEnergy, filterMod := normY)
    ensures forall j :: 0 <= j < NUM_VOICES && j != id ==> r.slots[j] == e.slots[j]
    ensures Consistent(e) ==> Consistent(r)
  {
    e.(slots := e.slots[id := e.slots[id].(volume := normEnergy, filterMod := normY)])
  }

  /** RetriggerBuffer: publish a new rate; the next tick sees the rate change. */
  function RetriggerBuffer(e: Engine, id: nat, rate: real): (r: Engine)
    requires WellFormed(e) && id < NUM_VOICES
    ensures WellFormed(r) && r.taken == e.taken
    ensures r.slots[id] == e.slots[id].(rate := rate)
    ensures forall j :: 0 <= j < NUM_VOICES && j != id ==> r.slots[j] == e.slots[j]
    ensures Consistent(e) ==> Consistent(r)
  {
    e.(slots := e.slots[id := e.slots[id].(rate := rate)])
  }

  /** The audio script's event listeners, each started with `spork`. */
  datatype Listener = SampleReloader | Killer

  /**
    The listeners the script starts: only the sample reloader. The kill
    listener is defined but never started.
   */
  const SPORKED: set<Listener> := {SampleReloader}

  /** The script's KILL_ALL: silence every buffer; nothing else changes. */
  function SilenceAll(e: Engine): (r: Engine)
    requires WellFormed(e)
    ensures WellFormed(r) && r.taken == e.taken
    ensures forall j :: 0 <= j < NUM_VOICES ==> r.slots[j] == e.slots[j].(gain := 0.0)
    ensures Consistent(e) ==> Consistent(r)
  {
    e.(slots := seq(NUM_VOICES, j requires 0 <= j < NUM_VOICES => e.slots[j].(gain := 0.0)))
  }

  /**
    KillAll: broadcast the kill event. Only a running kill listener acts on
    it by silencing every buffer; without one nothing changes.
   */
  function KillAll(e: Engine, running: set<Listener>): (r: Engine)
    requires WellFormed(e)
    ensures WellFormed(r) && r.taken == e.taken
    ensures Killer in running ==> forall j :: 0 <= j < NUM_VOICES ==> r.slots[j] == e.slots[j].(gain := 0.0)
    ensures Killer !in running ==> r == e
    ensures Consistent(e) ==> Consistent(r)
  {
    if Killer in running then SilenceAll(e) else e
  }

  /** Any slot arrays a tick can produce keep the pool consistent. */
  lemma TickKeepsConsistent(e: Engine, out: seq<Slot>, samples: nat, curve: real -> real)
    requires Consistent(e) && |out| == |e.slots|
    requires forall i :: 0 <= i < |e.slots| ==>
      ControlTick.TickedSlot(e.slots[i], out[i], samples, CountActive(e.slots), curve)
    ensures Consistent(Engine(e.taken, out))
  {
  }

  /**
    One control tick of the audio script over the engine: the taken table
    is unchanged, the pool stays consistent, and every slot changes as
    TickedSlot describes; by CountTakenIsCountActive the auto-gain divisor
    is the number of taken ids.
   */
  method TickEngine(e: Engine, samples: nat, curve: real -> real) returns (e': Engine)
    requires WellFormed(e)
    ensures WellFormed(e') && e'.taken == e.taken
    ensures Consistent(e) ==> Consistent(e')
    ensures forall i :: 0 <= i < NUM_VOICES ==>
      ControlTick.TickedSlot(e.slots[i], e'.slots[i], samples, CountActive(e.slots), curve)
  {
    var out := ControlTick.Tick(e.slots, samples, curve);
    e' := Engine(e.taken, out);
    if Consistent(e) {
      TickKeepsConsistent(e, out, samples, curve);
    }
  }
}

=== FILE: voice_slot.dfy ===
/**
  One voice slot of the audio engine in SoundManager.cs. The audio script keeps,
  per slot, the parameters published by the game (`bufferRates`, `bufferVolumes`,
  `bufferFilterMod`, `initialPositions`, `bufferActiveFlags`) and owns one sample
  buffer and one low-pass filter whose controls the control tick writes. A `Slot`
  holds both halves; floats are modelled as `real`.
 */
module VoiceSlot {

  /** Cutoff range of the per-slot low-pass filter, in Hz. */
  const MAX_LPF: real := 20000.0
  const MIN_LPF: real := 100.0

  /** Value of `initialPositions[i]` meaning "no seek requested". */
  const NO_SEEK: real := -1.0

  datatype Slot = Slot(
    // published by the game side
    rate: real,          // bufferRates[i]: signed playback rate
    volume: real,        // bufferVolumes[i]: normalised energy
    filterMod: real,     // bufferFilterMod[i]: normalised height
    pendingPos: real,    // initialPositions[i]: seek fraction, negative = none
    activeFlag: int,     // bufferActiveFlags[i]: 0 = free
    // owned by the audio script
    appliedRate: real,   // buffers[i].rate
    pos: int,            // buffers[i].pos, in samples
    gain: real,          // buffers[i].gain
    cutoff: real         // filters[i].freq
  )
  {
    predicate Active() { activeFlag != 0 }
    predicate SeekPending() { pendingPos >= 0.0 }
  }

  /**
    The state INITIAL_SETUP leaves a slot in: silent, filter fully open,
    rate 1, inactive, no seek pending. The buffer's own rate and cursor
    are the sample buffer's defaults (rate 1, cursor 0).
   */
  function InitialSlot(): (s: Slot)
    ensures !s.Active() && !s.SeekPending()
    ensures s.gain == 0.0 && s.volume == 0.0
    ensures s.cutoff == MAX_LPF && s.filterMod == 1.0
    ensures s.rate == s.appliedRate
  {
    Slot(1.0, 0.0, 1.0, NO_SEEK, 0, 1.0, 0, 0.0, MAX_LPF)
  }

  /** The audio script's `$ int` cast: truncation toward zero. */
  function Trunc(x: real): (r: int)
    ensures x >= 0.0 ==> 0 <= r && r as real <= x < r as real + 1.0
    ensures x < 0.0 ==> r <= 0 && r as real - 1.0 < x <= r as real
  {
    if x >= 0.0 then x.Floor else -((-x).Floor)
  }

  /** Number of slots whose active flag is set (the first loop of the tick). */
  function CountActive(slots: seq<Slot>): (n: nat)
    ensures n <= |slots|
    ensures forall i :: 0 <= i < |slots| && slots[i].Active() ==> n >= 1
    ensures n == 0 <==> forall i :: 0 <= i < |slots| ==> !slots[i].Active()
  {
    if |slots| == 0 then 0
    else CountActive(slots[..|slots| - 1]) + (if slots[|slots| - 1].Active() then 1 else 0)
  }
}

=== FILE: wrappers.dfy ===
/** Failure-compatible wrapper used where the modelled code has no value to give. */
module Wrappers {

  datatype Option<+T> = None | Some(value: T)
}
